=== FILE: README.md ===
# Screenshot Agent, modelled in Dafny

Three small Python scripts take screenshots and keep track of them:

- `screenshot_agent.py` grabs the desktop. A `ScreenshotModel` names each capture
  `screenshot_<YYYYMMDD_HHMMSS>.png` under `~/Desktop` and keeps an in-memory
  history of `{timestamp, filepath}` records. A `ScreenshotContext` holds the
  `is_capturing` flag and runs a capture loop once per second. The
  `ScreenshotProtocol` guards the start and stop commands.
- `crew_web_screenshot_agent.py` captures a web page in a headless browser. It
  adds `https://` to a URL that has no scheme and saves
  `crew_web_screenshot_<ts>.png` on the desktop. A failure inside the browser
  session becomes the string `"Error: <message>"`, and the session is released
  on every path. A prompt loop runs one task per line until the user types
  `exit`.
- `mcp_screenshot.py` asks a browser agent to save `~/Desktop/screenshot.png`
  and then uploads that file to cloud storage. Before uploading it decides
  whether to use the cached OAuth credential, refresh it, or run the
  interactive login, and whether to rewrite the token cache.

The model keeps the logic the scripts own and replaces every library call with
an input:

- the clock reading is a `Timestamps.DateTime`;
- the home directory is a string;
- each screen grab, page load, save, browser start, agent run, token refresh
  and login flow is an outcome that either succeeds or raises with a message;
- the capture thread becomes a sequence of ticks run one after another.

A history record is kept as the directory and the clock reading of its
capture. Its two dict fields, `timestamp` and `filepath`, are computed from
them exactly as `take_screenshot` computes them (`Entry.Timestamp`,
`Entry.Filepath`). Within one directory the pair of strings identifies the
record (`ScreenshotAgent.EntryFieldsDetermine`), so nothing is lost.

Each tick carries the clock reading, the outcome of that pass's capture, and
whether a stop command arrives during the one-second sleep that follows.

Modules, one file each:

- `Wrappers` holds `Option`, `Result` and `Step`.
- `Text` models the Python string built-ins the scripts use: `startswith`,
  `lower` and `strip`. It also defines the code-point order on strings. No
  script compares strings; that order is only used to state that stamps sort
  in time order.
- `Paths` models `os.path.join` and `pathlib.Path(...).name` on POSIX.
- `Timestamps` models `strftime("%Y%m%d_%H%M%S")` together with a parser that
  inverts it, and shows that stamps sort in time order.
- `ScreenshotAgent`, `WebScreenshot` and `McpScreenshot` follow the three
  scripts.

Some behaviour of the scripts worth knowing:

- After loading the page the browser script calls `implicitly_wait(5)`. That
  sets an element-lookup timeout and does not pause, so the model has no wait.
- Only the browser script creates the desktop directory (`os.makedirs`). The
  desktop script writes into it without creating it.
- A capture that raises inside the continuous loop ends the loop's thread but
  leaves `is_capturing` set. After that, "start" launches nothing until a
  "stop" (`ScreenshotAgent.CrashBlocksRestart`).
- Captures taken within the same second get the same path
  (`ScreenshotAgent.ShotPathCollision`). The history then lists that path
  twice although only the later file survives. The model keeps this
  behaviour and states it.

## Model

| member | source | states |
|---|---|---|
| Text.Strip | mcp_screenshot.py:82 | the result is a slice of the line with no whitespace at either end; only whitespace was removed before and after it; an all-whitespace line gives "" |
| Text.StripIdempotent | mcp_screenshot.py:82 | stripping an already stripped line changes nothing |
| Text.Lower | crew_web_screenshot_agent.py:57 | lowering keeps the length and maps every character on its own: an ASCII capital to its small letter, anything else to itself |
| Text.LexLessAsymmetric | screenshot_agent.py:34 | if one string sorts before another in code-point order, the second does not sort before the first |
| Paths.Join | screenshot_agent.py:36 | `os.path.join` ends with its second argument; an absolute second argument replaces the first; otherwise the result is the first argument, then one separator exactly when the first is non-empty and does not already end with one, then the second |
| Paths.Name | mcp_screenshot.py:44 | the last path component never contains a separator and is never "." |
| Paths.NameOfJoin | screenshot_agent.py:35-36 | the last component of `join(dir, f)` is `f` for every plain file name `f`, and the joined path is `f` directly inside `dir` |
| Paths.ChildPathUnique | screenshot_agent.py:36 | a directory and a name allow only one child path, so the join's result is fixed by its contract |
| Paths.JoinInjective | screenshot_agent.py:36 | joining two plain names onto one directory gives the same path only for the same name |
| Timestamps.Digits | screenshot_agent.py:34 | a zero-padded field has exactly its width in characters, all of them decimal digits |
| Timestamps.ValueOfDigits | screenshot_agent.py:34 | reading a zero-padded field back gives the number that was written |
| Timestamps.DigitsOfValue | screenshot_agent.py:34 | every digit string is the zero-padded form of its own value |
| Timestamps.DigitsOrder | screenshot_agent.py:34 | zero-padded fields of one width sort as strings in numeric order |
| Timestamps.Format | screenshot_agent.py:34 | a stamp is 15 characters long |
| Timestamps.FormatFields | screenshot_agent.py:34 | the stamp holds the four-digit year, then month and day, an underscore, then hour, minute and second, each zero-padded to two digits |
| Timestamps.FormatShape | screenshot_agent.py:34 | a stamp is 8 digits, an underscore and 6 digits |
| Timestamps.FormatHasNoSlash | screenshot_agent.py:34-35 | a stamp never contains a path separator, so it can sit inside a file name |
| Timestamps.TailOrder | screenshot_agent.py:34 | when the coarser fields agree, the earlier time's stamp sorts first from the current field on |
| Timestamps.NoonStamp | screenshot_agent.py:34 | 2024-01-01 12:00:00 is stamped "20240101_120000" |
| Timestamps.ParseFormat | screenshot_agent.py:34 | every stamp reads back as exactly the time it was made from |
| Timestamps.FormatParse | screenshot_agent.py:34 | every string that reads back as a time is exactly that time's stamp |
| Timestamps.FormatInjective | screenshot_agent.py:34 | two times give the same stamp if and only if they fall in the same second |
| Timestamps.FormatOrder | screenshot_agent.py:34 | one time is earlier than another if and only if its stamp sorts first as a string |
| ScreenshotAgent.DesktopPath | screenshot_agent.py:27-31 | the capture directory is `~/Desktop` on every platform, and its last component is "Desktop" |
| ScreenshotAgent.NewModel | screenshot_agent.py:23-25 | a new model starts with an empty history in `join(home, "Desktop")`, whose last component is "Desktop" |
| ScreenshotAgent.ShotPath | screenshot_agent.py:34-36 | a capture's path is the model's directory, one separator exactly when the directory needs one, then `screenshot_<stamp>.png`; its last component is that name |
| ScreenshotAgent.NoonCaptureName | screenshot_agent.py:34-35 | a capture at 2024-01-01 12:00:00 is named `screenshot_20240101_120000.png` |
| ScreenshotAgent.ShotPathCollision | screenshot_agent.py:34-36 | two captures get the same path if and only if they are taken in the same second |
| ScreenshotAgent.EntryFields | screenshot_agent.py:34-44 | a record's `filepath` is `screenshot_<timestamp>.png` directly inside its directory, with the record's own `timestamp`, which reads back as the capture time |
| ScreenshotAgent.EntryFieldsDetermine | screenshot_agent.py:41-44 | two records of one directory have the same `timestamp`, or the same `filepath`, if and only if they are the same record |
| ScreenshotAgent.Record | screenshot_agent.py:38-44 | a raising grab or save gives its message and no new model; otherwise the model keeps its directory and gains exactly the capture's record after the old history |
| ScreenshotAgent.TakeScreenshot | screenshot_agent.py:33-46 | a successful capture appends exactly one entry, holding the stamp and the path it computed, after the old history, and returns that path; a raising capture leaves the model unchanged; history consistency is preserved |
| ScreenshotAgent.GetScreenshotHistory | screenshot_agent.py:48-49 | the history is returned entry for entry; in a consistent model each record's path is `screenshot_<timestamp>.png` directly inside the model's directory, with the record's own stamp |
| ScreenshotAgent.StartCapture | screenshot_agent.py:58-60 | `start_capture` raises the flag and leaves the model alone |
| ScreenshotAgent.StopCapture | screenshot_agent.py:62-64 | `stop_capture` clears the flag and leaves the model alone |
| ScreenshotAgent.StartContinuous | screenshot_agent.py:116-122 | a loop is launched if and only if the context was Idle; afterwards the context is Capturing; while Capturing, start is a no-op |
| ScreenshotAgent.StopContinuous | screenshot_agent.py:124-126 | afterwards the context is Idle with the same model; while Idle, stop is a no-op |
| ScreenshotAgent.StartThenStop | screenshot_agent.py:116-126 | start from Idle followed by stop gives back the same Idle context |
| ScreenshotAgent.StartTwiceLaunchesOnce | screenshot_agent.py:116-118 | a second start launches no second loop and changes nothing |
| ScreenshotAgent.TakeSingleScreenshot | screenshot_agent.py:109-114 | a single capture never touches the flag; on failure the exception is swallowed and the context is unchanged; on success exactly one entry is appended |
| ScreenshotAgent.Pass | screenshot_agent.py:67-69 | one loop pass either raises, or appends exactly its tick's entry and leaves the flag set unless a stop arrived during the sleep |
| ScreenshotAgent.Loop | screenshot_agent.py:66-69 | from Idle the loop does nothing; while capturing it captures on every tick until the first tick whose capture raises (Crashed, with that message, flag still set) or the first tick during whose sleep a stop arrives (Stopped, after capturing on that tick); with neither it captures on every tick and is still running |
| ScreenshotAgent.LoopRecords | screenshot_agent.py:66-69 | after the loop, the history is the old history followed by one entry per capture, in tick order |
| ScreenshotAgent.AppendConsistent | screenshot_agent.py:41-44 | appending records of the directory to a history of the directory keeps every record in the directory |
| ScreenshotAgent.LoopKeepsConsistent | screenshot_agent.py:66-69 | the loop keeps every history record in the model's directory |
| ScreenshotAgent.LoopStopLatency | screenshot_agent.py:66-69 | a stop that arrives during pass k lets no later pass capture |
| ScreenshotAgent.CrashBlocksRestart | screenshot_agent.py:116-118 | after a capture raises inside the loop, the flag stays set and a new start launches nothing |
| ScreenshotAgent.RecordedStampsSorted | screenshot_agent.py:66-69 | if the clock never goes backwards, the stamps of the recorded entries never decrease as strings |
| ScreenshotAgent.CaptureLoop | screenshot_agent.py:66-69 | the while loop computes the same run as the recursive definition `Loop` |
| WebScreenshot.NormalizeUrl | crew_web_screenshot_agent.py:28-29 | a URL that starts with "http://" or "https://" is returned unchanged; any other URL gets "https://" in front; the result always has one of the two schemes and ends with the input |
| WebScreenshot.NormalizeIdempotent | crew_web_screenshot_agent.py:28-29 | normalising twice gives the same result as normalising once |
| WebScreenshot.UpperCaseSchemeIsPrefixed | crew_web_screenshot_agent.py:28 | the scheme test is case-sensitive: "HTTP://x" becomes "https://HTTP://x" |
| WebScreenshot.WebShotPath | crew_web_screenshot_agent.py:33-35 | the saved path is `crew_web_screenshot_<stamp>.png` directly inside `join(home, "Desktop")`, and that name is its last component |
| WebScreenshot.CountOfConcat | crew_web_screenshot_agent.py:42-43 | counting events in a joined trace adds the counts of the two parts |
| WebScreenshot.Session | crew_web_screenshot_agent.py:27-43 | an opened session acquires once, releases once, and the release comes last |
| WebScreenshot.SessionTrace | crew_web_screenshot_agent.py:27-43 | an opened session acquires first, loads the target exactly once as its second event, saves to the path exactly once when the load succeeded and never otherwise, and releases once, last |
| WebScreenshot.InSession | crew_web_screenshot_agent.py:27-43 | inside the session the normalised URL is loaded exactly once, first; the computed path is saved to exactly once if the load did not raise and never otherwise; success returns the path and a raised exception returns exactly "Error: " + message; either way the session is released exactly once, as the last event |
| WebScreenshot.TakeWebsiteScreenshot | crew_web_screenshot_agent.py:17-43 | the session is released exactly once if it was acquired and never otherwise; a failure before the browser exists escapes with its own message (the directory creation's, else the browser start's) and nothing released; once acquired, the normalised URL is loaded exactly once, first, and the desktop path is saved to exactly once if the load did not raise and never otherwise; the session is acquired exactly once when the directory creation and the browser start succeed and never otherwise; the function returns a string exactly when the session was acquired; that string is the desktop path on success and "Error: " + message on failure |
| WebScreenshot.ErrorNeverLooksLikePath | crew_web_screenshot_agent.py:18-41 | once the browser has started, and with an absolute home directory, the returned string starts with "Error: " if and only if the page load or the save raised |
| WebScreenshot.AbsolutePathIsNoError | crew_web_screenshot_agent.py:18 | a path under an absolute home directory never starts with "Error: " |
| WebScreenshot.IsExitCommand | crew_web_screenshot_agent.py:57 | an answer is an exit command exactly when its lower-cased form is "exit", so it is four characters long |
| WebScreenshot.ExitCommandSpellings | crew_web_screenshot_agent.py:57 | the exit test accepts exactly the four-letter strings that spell "exit" in any mix of case |
| WebScreenshot.TaskFor | crew_web_screenshot_agent.py:60-67 | the task built for a line captures that line's URL |
| WebScreenshot.RunPrompt | crew_web_screenshot_agent.py:55-62 | over the answers `Prompt.ask` returns, the loop ends with an exit if and only if some answer is an exit command; each answer before the first exit gives exactly one task for that answer, in order; with no exit every answer gives a task |
| McpScreenshot.PlanAuth | mcp_screenshot.py:30-41 | with validity and expiry read at the call's clock: a present, valid credential is used as it is; a present, invalid, expired credential with a refresh token is refreshed; a missing one, or one with no refresh path, runs the interactive flow; the cache is rewritten if and only if the credential was missing or invalid |
| McpScreenshot.Authenticate | mcp_screenshot.py:28-41 | the cached credential is used as it is with no cache write; otherwise the refreshed or newly obtained credential is used and cached; a raising refresh or flow leaves the cache alone |
| McpScreenshot.NoRepromptAfterValidCredential | mcp_screenshot.py:30-41 | after a call ends with a credential that is still valid at the next call's clock reading, the next call neither prompts nor rewrites the cache |
| McpScreenshot.Expired | mcp_screenshot.py:35 | a credential with no expiry never counts as expired; one with an expiry counts as expired exactly from that clock reading on |
| McpScreenshot.Valid | mcp_screenshot.py:34 | a credential is valid exactly when it holds an access token that has not expired at the clock reading, so one without a token is never valid |
| McpScreenshot.ExpiredStaysExpired | mcp_screenshot.py:34-35 | a credential that has expired at one clock reading is expired, and not valid, at every later one |
| McpScreenshot.ExpiredCacheIsRenewed | mcp_screenshot.py:34-41 | a cached credential that has expired by the call is refreshed when it holds a refresh token, and otherwise the interactive flow runs again; either way the cache is rewritten |
| McpScreenshot.MissingCacheScenario | mcp_screenshot.py:30-41 | with no token file, the first call runs the interactive flow once and caches its result; a second call made before that token expires uses the cache |
| McpScreenshot.FileMetadata | mcp_screenshot.py:44-46 | the upload name is the given name when it is non-empty, and otherwise the last component of the local path; `parents` is present if and only if the folder id is non-empty, and then it is exactly `[folder_id]` |
| McpScreenshot.AgentPrompt | mcp_screenshot.py:74 | the prompt starts with "Go to " and ends with " and save a screenshot as " followed by the output path |
| McpScreenshot.PromptUrl | mcp_screenshot.py:74 | a URL recovered from a prompt fills exactly the space between the fixed head and tail |
| McpScreenshot.PromptRoundTrip | mcp_screenshot.py:74 | the URL can be recovered from the prompt built for it |
| McpScreenshot.PromptUrlSound | mcp_screenshot.py:74 | any prompt from which a URL is recovered is exactly the prompt built for that URL |
| McpScreenshot.OutputPath | mcp_screenshot.py:84 | the output path is "screenshot.png" directly inside `join(home, "Desktop")`, and that name is its last component |
| McpScreenshot.RunScript | mcp_screenshot.py:74-85 | the URL is the stripped input line; the output path is the fixed desktop path; the prompt carries that URL and path; `upload_to_gdrive` is called if and only if the agent run returned, with that same path, the name "screenshot.png", no parents, and the credential and token cache that authentication at the call's clock gives |
| McpScreenshot.OutputPathIgnoresUrl | mcp_screenshot.py:84-85 | the output path is the same whatever URL is entered |

## Left out

- Screen grabs, the browser driver, the agent run, the token refresh, the login
  flow and the upload request are library or network calls. Each is an outcome
  passed in. The id the upload returns and the prints are not modelled.
- The boolean that the browser's save call returns is ignored by the script. In
  the model a save that does not raise counts as success.
- WebScreenshot.TakeWebsiteScreenshot: the `console.print` calls at
  `crew_web_screenshot_agent.py:30`, `:37` and `:40` are assumed not to raise.
  rich raises on bad markup, such as an unmatched closing tag `[/b]` in the URL
  or in the message. Such an exception escapes after `driver.quit()`, and no
  string is returned.
- ScreenshotAgent.TakeSingleScreenshot: the `console.print` calls at
  `screenshot_agent.py:112` and `:114` are assumed not to raise in the same
  way. A markup error in the printed path or message would escape.
- `driver.quit()` is assumed not to raise. A raising quit would replace the
  function's return value.
- The crew `Agent`/`Task`/`Crew` objects and `kickoff` are orchestration with no
  local logic. A task is reduced to its description and URL.
- The capture thread and `time.sleep` are replaced by sequential ticks of one
  loop. A stop that arrives during the sleep is a field of each tick. Other
  cross-thread effects are not modelled:
  - A stop followed by a start within one sleep launches a second thread
    (`screenshot_agent.py:117-122`). The old thread then sees `is_capturing`
    set again and keeps capturing, so two loops run at once.
  - A single capture from the menu (`screenshot_agent.py:139-140`) can append
    its entry between the loop's entries.
- Environment loading, the API-key check at import time, the rich console and
  the numbered menu (`show_menu`) are I/O. The keyboard hotkeys are disabled in
  the source. None of these are modelled.
- Paths use the POSIX separator only. Windows `ntpath` joining is not modelled.
- The home directory is taken as given. `pathlib`'s normalisation of an
  already normalised home directory is the identity, so `Paths.Join` stands in
  for `pathlib`'s `/`.
- Timestamps.Format: only years 1000 to 9999 are modelled, where `%Y` always
  gives four digits.
- Text.Lower: maps only ASCII letters. No other character lowers to one of the
  letters of "exit", and a character that lowers to two characters changes the
  length. So the exit test is exact.
- WebScreenshot.RunPrompt: the inputs are the answers `Prompt.ask` gives back,
  after rich's own processing of the typed line. End of input, where
  `Prompt.ask` raises, is not modelled; a finite input with no exit stands for
  the session up to that point.
- McpScreenshot.PlanAuth: `creds.valid` and `creds.expired` are computed by
  the auth library from the clock at every access. The model reads them at one
  clock reading per call, and a credential's expiry already has the library's
  refresh margin taken off.
- McpScreenshot.Authenticate: a token file whose pickled content is not a
  credential object is not modelled.
- The system prompt text and the MCP client configuration are opaque inputs to
  the agent and are not modelled.

=== FILE: mcp_screenshot.dfy ===
/** The tool-driven capture script: read a URL, ask a browser agent to save
    a screenshot at a fixed desktop path, then upload that file to cloud
    storage. The agent run, the OAuth calls and the upload request are
    outcomes passed in; what remains is the credential decision, the
    upload metadata, the prompt and the output path. */
module McpScreenshot {
  import opened Wrappers
  import opened Text
  import Paths

  /** The parts of a stored OAuth credential that the script inspects: whether
      it holds an access token, when that token stops counting as fresh (the
      expiry less the library's refresh margin, in seconds of the clock; none
      for a token that never expires), and whether it holds a refresh token. */
  datatype Credential = Credential(hasToken: bool, expiry: Option<int>, hasRefreshToken: bool)

  /** `creds.expired` read at clock reading `now`: it is recomputed at every
      access, so the same stored credential can be fresh at one call and
      expired at the next. */
  predicate Expired(c: Credential, now: int): (e: bool)
    ensures c.expiry.None? ==> !e
    ensures c.expiry.Some? ==> (e <==> c.expiry.value <= now)
  {
    c.expiry.Some? && now >= c.expiry.value
  }

  /** `creds.valid` read at `now`: a token that has not expired. */
  predicate Valid(c: Credential, now: int): (v: bool)
    ensures v <==> c.hasToken && !Expired(c, now)
    ensures !c.hasToken ==> !v
  {
    c.hasToken && !Expired(c, now)
  }

  /** A credential once expired stays expired, and so never becomes valid
      again without a refresh. */
  lemma ExpiredStaysExpired(c: Credential, now: int, later: int)
    requires Expired(c, now) && now <= later
    ensures Expired(c, later) && !Valid(c, later)
  {
  }

  /** The token cache file: absent, or holding a pickled credential. */
  datatype TokenCache = NoToken | Cached(cred: Credential)

  datatype AuthAction = UseCached | Refresh | InteractiveFlow

  /** How the credential is obtained and whether the cache is rewritten. */
  datatype AuthPlan = AuthPlan(action: AuthAction, writeCache: bool)

  /** The credential branch of `upload_to_gdrive` at clock reading `now`: a
      valid cached credential is used as it is; an invalid one that is
      expired and has a refresh token is refreshed; anything else runs the
      interactive flow; the cache is rewritten whenever the cached credential
      was not used as it is. */
  function PlanAuth(cache: TokenCache, now: int): (p: AuthPlan)
    ensures p.action == UseCached <==> cache.Cached? && Valid(cache.cred, now)
    ensures p.action == Refresh <==>
              && cache.Cached? && !Valid(cache.cred, now)
              && Expired(cache.cred, now) && cache.cred.hasRefreshToken
    ensures p.action == InteractiveFlow <==>
              || cache.NoToken?
              || (!Valid(cache.cred, now) && !(Expired(cache.cred, now) && cache.cred.hasRefreshToken))
    ensures p.writeCache <==> cache.NoToken? || !Valid(cache.cred, now)
  {
    var creds := if cache.Cached? then Some(cache.cred) else None;
    if creds.None? || !Valid(creds.value, now) then
      if creds.Some? && Expired(creds.value, now) && creds.value.hasRefreshToken then AuthPlan(Refresh, true)
      else AuthPlan(InteractiveFlow, true)
    else AuthPlan(UseCached, false)
  }

  /** The decision, the credential the upload proceeds with (or the
      exception of the refresh or the flow), and the cache afterwards. */
  datatype AuthRun = AuthRun(plan: AuthPlan, creds: Result<Credential>, cache: TokenCache)

  /** Authentication with the cache at `now`, where `obtained` is what the
      refresh or the interactive flow yields when the plan calls for one. A
      raising refresh or flow escapes before the cache is written. */
  function Authenticate(cache: TokenCache, now: int, obtained: Result<Credential>): (r: AuthRun)
    ensures r.plan == PlanAuth(cache, now)
    ensures r.plan.action == UseCached ==> r.creds == Ok(cache.cred) && r.cache == cache
    ensures r.plan.action != UseCached ==> r.creds == obtained
    ensures r.cache != cache ==> r.plan.writeCache && r.creds.Ok? && r.cache == Cached(r.creds.value)
    ensures r.plan.writeCache && obtained.Ok? ==> r.cache == Cached(obtained.value)
  {
    var plan := PlanAuth(cache, now);
    if !plan.writeCache then AuthRun(plan, Ok(cache.cred), cache)
    else match obtained
      case Err(msg) => AuthRun(plan, Err(msg), cache)
      case Ok(c) => AuthRun(plan, Ok(c), Cached(c))
  }

  /** Once a call at `now` has ended with a credential that is still valid
      at the next call's clock reading `later`, that next call neither
      prompts nor rewrites the cache. */
  lemma NoRepromptAfterValidCredential(cache: TokenCache, now: int, obtained: Result<Credential>,
                                       later: int, next: Result<Credential>)
    requires Authenticate(cache, now, obtained).creds.Ok?
    requires Valid(Authenticate(cache, now, obtained).creds.value, later)
    ensures PlanAuth(Authenticate(cache, now, obtained).cache, later) == AuthPlan(UseCached, false)
    ensures Authenticate(Authenticate(cache, now, obtained).cache, later, next).cache
            == Authenticate(cache, now, obtained).cache
  {
  }

  /** Once the cached token has expired by the next call, that call refreshes
      it when a refresh token is held and prompts again otherwise, and
      rewrites the cache either way. */
  lemma ExpiredCacheIsRenewed(c: Credential, later: int)
    requires Expired(c, later)
    ensures PlanAuth(Cached(c), later).writeCache
    ensures PlanAuth(Cached(c), later).action == (if c.hasRefreshToken then Refresh else InteractiveFlow)
  {
  }

  /** With no token file, the first upload runs the interactive flow once and
      caches its credential; a second one whose clock reading is still
      before that token's expiry uses the cache. */
  lemma MissingCacheScenario(login: Credential, now: int, later: int, next: Result<Credential>)
    requires Valid(login, later)
    ensures Authenticate(NoToken, now, Ok(login)).plan == AuthPlan(InteractiveFlow, true)
    ensures Authenticate(NoToken, now, Ok(login)).cache == Cached(login)
    ensures Authenticate(Cached(login), later, next).plan == AuthPlan(UseCached, false)
  {
  }

  /** Python truthiness of an optional string argument. */
  predicate Truthy(o: Option<string>)
  {
    o.Some? && o.value != []
  }

  /** The body sent with the upload request: a name and, optionally, the
      list of parent folders. */
  datatype DriveMetadata = DriveMetadata(name: string, parents: Option<seq<string>>)

  /** `file_metadata`: the name defaults to the last component of the local
      path; `parents` is present only for a truthy folder id. */
  function FileMetadata(localPath: string, driveFilename: Option<string>, folderId: Option<string>): (m: DriveMetadata)
    ensures Truthy(driveFilename) ==> m.name == driveFilename.value
    ensures !Truthy(driveFilename) ==> m.name == Paths.Name(localPath)
    ensures m.parents.Some? <==> Truthy(folderId)
    ensures m.parents.Some? ==> m.parents.value == [folderId.value]
  {
    var name := if Truthy(driveFilename) then driveFilename.value else Paths.Name(localPath);
    DriveMetadata(name, if Truthy(folderId) then Some([folderId.value]) else None)
  }

  const PromptHead := "Go to "
  const PromptMiddle := " and save a screenshot as "

  /** The instruction handed to the browser agent. */
  function AgentPrompt(url: string, outputPath: string): (p: string)
    ensures StartsWith(p, PromptHead)
    ensures EndsWith(p, PromptMiddle + outputPath)
    ensures |p| == |PromptHead| + |url| + |PromptMiddle| + |outputPath|
  {
    var p := PromptHead + url + PromptMiddle + outputPath;
    assert p[..|PromptHead|] == PromptHead;
    assert p[|p| - |PromptMiddle + outputPath|..] == PromptMiddle + outputPath;
    p
  }

  /** Recovers the URL from a prompt built for `outputPath`. */
  function PromptUrl(prompt: string, outputPath: string): (u: Option<string>)
    ensures u.Some? ==> |prompt| == |PromptHead| + |u.value| + |PromptMiddle| + |outputPath|
  {
    var tail := PromptMiddle + outputPath;
    if |PromptHead| + |tail| <= |prompt| && StartsWith(prompt, PromptHead) && EndsWith(prompt, tail)
    then Some(prompt[|PromptHead|..|prompt| - |tail|])
    else None
  }

  lemma PromptRoundTrip(url: string, outputPath: string)
    ensures PromptUrl(AgentPrompt(url, outputPath), outputPath) == Some(url)
  {
    var p := AgentPrompt(url, outputPath);
    assert p == PromptHead + url + (PromptMiddle + outputPath);
    assert p[|PromptHead|..|p| - |PromptMiddle + outputPath|] == url;
  }

  lemma PromptUrlSound(prompt: string, outputPath: string)
    requires PromptUrl(prompt, outputPath).Some?
    ensures AgentPrompt(PromptUrl(prompt, outputPath).value, outputPath) == prompt
  {
    var tail := PromptMiddle + outputPath;
    var u := PromptUrl(prompt, outputPath).value;
    assert prompt == prompt[..|PromptHead|] + prompt[|PromptHead|..|prompt| - |tail|] + prompt[|prompt| - |tail|..];
  }

  const OutputName := "screenshot.png"

  /** `Path.home() / "Desktop" / "screenshot.png"`: the fixed name directly
      inside the desktop directory. */
  function OutputPath(home: string): (p: string)
    ensures Paths.ChildPath(p, Paths.Join(home, "Desktop"), OutputName)
    ensures Paths.Name(p) == OutputName
  {
    assert Paths.IsPlainName(OutputName);
    Paths.NameOfJoin(Paths.Join(home, "Desktop"), OutputName);
    Paths.Join(Paths.Join(home, "Desktop"), OutputName)
  }

  /** What the upload is asked to send. */
  datatype Upload = Upload(localPath: string, metadata: DriveMetadata, auth: AuthRun)

  datatype ScriptRun = ScriptRun(website: string, outputPath: string, prompt: string, upload: Option<Upload>)

  /** The script end to end: the stripped input line, the fixed output
      path, the prompt, and the upload of that same path with default
      arguments once the agent run has returned; `now` is the clock reading
      at the upload's credential check. */
  function RunScript(line: string, home: string, agent: Step, cache: TokenCache, now: int,
                     obtained: Result<Credential>): (r: ScriptRun)
    ensures r.website == Strip(line)
    ensures r.outputPath == OutputPath(home)
    ensures PromptUrl(r.prompt, r.outputPath) == Some(r.website)
    ensures r.upload.Some? <==> agent.Done?
    ensures r.upload.Some? ==> && r.upload.value.localPath == r.outputPath
                               && r.upload.value.metadata == DriveMetadata(OutputName, None)
                               && r.upload.value.auth.plan == PlanAuth(cache, now)
                               && r.upload.value.auth == Authenticate(cache, now, obtained)
  {
    var website := Strip(line);
    var output := OutputPath(home);
    PromptRoundTrip(website, output);
    var prompt := AgentPrompt(website, output);
    if agent.Raises? then ScriptRun(website, output, prompt, None)
    else ScriptRun(website, output, prompt, Some(Upload(output, FileMetadata(output, None, None), Authenticate(cache, now, obtained))))
  }

  /** The output path, and so the uploaded file, does not depend on the URL. */
  lemma OutputPathIgnoresUrl(line1: string, line2: string, home: string, agent: Step,
                             cache: TokenCache, now: int, obtained: Result<Credential>)
    ensures RunScript(line1, home, agent, cache, now, obtained).outputPath
            == RunScript(line2, home, agent, cache, now, obtained).outputPath
  {
  }
}

=== FILE: paths.dfy ===
/** The two path operations the scripts rely on, with POSIX semantics:
    `os.path.join(a, b)` and the final component `pathlib.Path(p).name`. */
module Paths {
  import opened Text

  const Separator: char := '/'

  /** A relative component name with no separator in it, such as a file name
      built by the scripts. */
  predicate IsPlainName(f: string)
  {
    f != [] && f != "." && Separator !in f
  }

  /** A plain name stays plain with separator-free text appended. */
  lemma PlainConcat(a: string, b: string, c: string)
    requires IsPlainName(a) && Separator !in b && Separator !in c
    ensures IsPlainName(a + b + c)
  {
    var f := a + b + c;
    forall i | 0 <= i < |f|
      ensures f[i] != Separator
    {
      if i < |a| {
        assert f[i] == a[i];
      } else if i < |a| + |b| {
        assert f[i] == b[i - |a|];
      } else {
        assert f[i] == c[i - |a| - |b|];
      }
    }
    assert f[..|a|] == a;
  }

  /** `dir` needs a separator before a child name: it is non-empty and
      does not already end with one. */
  predicate NeedsSeparator(dir: string)
  {
    dir != [] && dir[|dir| - 1] != Separator
  }

  /** `p` spells the child `f` of directory `dir`: all of `dir`, then one
      separator exactly when `dir` needs one, then all of `f`. */
  predicate ChildPath(p: string, dir: string, f: string)
  {
    && StartsWith(p, dir)
    && EndsWith(p, f)
    && |p| == |dir| + |f| + (if NeedsSeparator(dir) then 1 else 0)
    && (NeedsSeparator(dir) ==> p[|dir|] == Separator)
  }

  /** A directory and a name leave room for only one child path. */
  lemma ChildPathUnique(p1: string, p2: string, dir: string, f: string)
    requires ChildPath(p1, dir, f) && ChildPath(p2, dir, f)
    ensures p1 == p2
  {
    forall i | 0 <= i < |p1|
      ensures p1[i] == p2[i]
    {
      if i < |dir| {
        assert p1[..|dir|][i] == p2[..|dir|][i];
      } else if i >= |p1| - |f| {
        assert p1[|p1| - |f|..][i - (|p1| - |f|)] == p2[|p2| - |f|..][i - (|p2| - |f|)];
      }
    }
  }

  /** `os.path.join(a, b)`: an absolute `b` replaces `a`; otherwise one
      separator is inserted unless `a` is empty or already ends with one. */
  function Join(a: string, b: string): (p: string)
    ensures EndsWith(p, b)
    ensures StartsWith(b, [Separator]) ==> p == b
    ensures !StartsWith(b, [Separator]) ==> ChildPath(p, a, b)
  {
    if StartsWith(b, [Separator]) then b
    else if a == [] || a[|a| - 1] == Separator then a + b
    else a + [Separator] + b
  }

  /** Start of the last separator-free stretch of `p`. */
  function SegmentStart(p: string): (k: nat)
    ensures k <= |p|
    ensures forall i :: k <= i < |p| ==> p[i] != Separator
    ensures 0 < k ==> p[k - 1] == Separator
  {
    if p == [] then 0
    else if p[|p| - 1] == Separator then |p|
    else SegmentStart(p[..|p| - 1])
  }

  /** `pathlib.Path(p).name`: the last component once empty and "."
      components are dropped, or "" when there is none. */
  function Name(p: string): (n: string)
    ensures Separator !in n
    ensures n != "."
    decreases |p|
  {
    if p == [] then []
    else if p[|p| - 1] == Separator then Name(p[..|p| - 1])
    else
      var k := SegmentStart(p);
      if p[k..] == "." then Name(p[..k]) else p[k..]
  }

  lemma {:induction false} SegmentStartAfterSeparator(prefix: string, f: string)
    requires prefix == [] || prefix[|prefix| - 1] == Separator
    requires Separator !in f
    ensures SegmentStart(prefix + f) == |prefix|
    decreases |f|
  {
    if f == [] {
      assert prefix + f == prefix;
    } else {
      var p := prefix + f;
      assert p[..|p| - 1] == prefix + f[..|f| - 1];
      assert p[|p| - 1] == f[|f| - 1];
      SegmentStartAfterSeparator(prefix, f[..|f| - 1]);
    }
  }

  /** The name of a joined path is the plain name that was joined on. */
  lemma {:induction false} NameOfJoin(dir: string, f: string)
    requires IsPlainName(f)
    ensures Name(Join(dir, f)) == f
    ensures ChildPath(Join(dir, f), dir, f)
  {
    var p := Join(dir, f);
    var prefix := p[..|p| - |f|];
    assert !StartsWith(f, [Separator]) by {
      assert f[0] != Separator;
    }
    assert prefix == [] || prefix[|prefix| - 1] == Separator;
    assert p == prefix + f;
    SegmentStartAfterSeparator(prefix, f);
    assert p[|p| - 1] == f[|f| - 1];
    assert p[|prefix|..] == f;
  }

  /** Joining plain names onto one directory is injective. */
  lemma JoinInjective(dir: string, f1: string, f2: string)
    requires IsPlainName(f1) && IsPlainName(f2)
    ensures Join(dir, f1) == Join(dir, f2) <==> f1 == f2
  {
    NameOfJoin(dir, f1);
    NameOfJoin(dir, f2);
  }
}

=== FILE: screenshot_agent.dfy ===
/** The desktop capture script: a model that names, takes and records
    screenshots, a context holding the capturing flag, the continuous
    capture loop, and the guarded start and stop commands of the protocol
    object. The screen grab itself is an outcome passed in; the loop's
    thread is replaced by a sequence of ticks run one after another. */
module ScreenshotAgent {
  import opened Wrappers
  import opened Text
  import Paths
  import Timestamps

  /** What `platform.system()` reports, as far as the script tells apart. */
  datatype Platform = Windows | OtherPlatform

  /** One history record, kept as the directory and the clock reading of
      the capture; its two fields, the stamp and the path written, are
      computed from them exactly as the capture computed them. */
  datatype Entry = Entry(dir: string, taken: Timestamps.DateTime)
  {
    /** The record's `"timestamp"` field. */
    function Timestamp(): string
    {
      Timestamps.Format(taken)
    }

    /** The record's `"filepath"` field. */
    function Filepath(): string
    {
      ShotPath(dir, taken)
    }
  }

  /** `ScreenshotModel`: the target directory and the in-memory history. */
  datatype Model = Model(dir: string, history: seq<Entry>)

  /** `_get_desktop_path`: `~/Desktop`, written out for each platform. */
  function DesktopPath(home: string, platform: Platform): (dir: string)
    ensures dir == Paths.Join(home, "Desktop")
    ensures Paths.Name(dir) == "Desktop"
  {
    Paths.NameOfJoin(home, "Desktop");
    match platform
    case Windows => Paths.Join(home, "Desktop")
    case OtherPlatform => Paths.Join(home, "Desktop")
  }

  /** `ScreenshotModel()`: empty history, desktop directory. */
  function NewModel(home: string, platform: Platform): (m: Model)
    ensures m.history == []
    ensures m.dir == Paths.Join(home, "Desktop")
    ensures Paths.Name(m.dir) == "Desktop"
  {
    Model(DesktopPath(home, platform), [])
  }

  function ShotFilename(stamp: string): string
  {
    "screenshot_" + stamp + ".png"
  }

  /** Where a capture taken at `now` is written: the stamped file name
      directly inside `dir`. */
  function ShotPath(dir: string, now: Timestamps.DateTime): (p: string)
    ensures Paths.ChildPath(p, dir, ShotFilename(Timestamps.Format(now)))
    ensures Paths.Name(p) == ShotFilename(Timestamps.Format(now))
  {
    var f := ShotFilename(Timestamps.Format(now));
    Timestamps.FormatHasNoSlash(now);
    Paths.PlainConcat("screenshot_", Timestamps.Format(now), ".png");
    Paths.NameOfJoin(dir, f);
    Paths.Join(dir, f)
  }

  /** A capture at 2024-01-01 12:00:00 is named screenshot_20240101_120000.png.
      The reading is a parameter pinned by the precondition, not a literal,
      for the same reason as in `Timestamps.NoonStamp`. */
  lemma NoonCaptureName(dir: string, t: Timestamps.DateTime)
    requires t == Timestamps.Clock(2024, 1, 1, 12, 0, 0)
    ensures Paths.Name(ShotPath(dir, t)) == "screenshot_20240101_120000.png"
  {
    Timestamps.NoonStamp(t);
    NoonFilename();
  }

  lemma NoonFilename()
    ensures ShotFilename("20240101_120000") == "screenshot_20240101_120000.png"
  {
  }

  /** Two captures land on the same path exactly when they are taken in
      the same second. */
  lemma ShotPathCollision(dir: string, t1: Timestamps.DateTime, t2: Timestamps.DateTime)
    ensures ShotPath(dir, t1) == ShotPath(dir, t2) <==> t1 == t2
  {
    if ShotPath(dir, t1) == ShotPath(dir, t2) {
      var f1 := ShotFilename(Timestamps.Format(t1));
      var f2 := ShotFilename(Timestamps.Format(t2));
      assert f1 == f2;
      assert Timestamps.Format(t1) == f1[11..26];
      assert Timestamps.Format(t2) == f2[11..26];
      Timestamps.FormatInjective(t1, t2);
    }
  }

  /** A record names a file in `dir` whose name carries the record's own
      stamp, and that stamp reads back as the capture's clock reading. */
  lemma EntryFields(e: Entry)
    ensures Paths.ChildPath(e.Filepath(), e.dir, ShotFilename(e.Timestamp()))
    ensures Paths.Name(e.Filepath()) == ShotFilename(e.Timestamp())
    ensures Timestamps.Parse(e.Timestamp()) == Some(e.taken)
  {
    Timestamps.ParseFormat(e.taken);
  }

  /** Two records of one directory agree in either field exactly when
      they are the same record. */
  lemma EntryFieldsDetermine(e1: Entry, e2: Entry)
    requires e1.dir == e2.dir
    ensures e1.Timestamp() == e2.Timestamp() <==> e1 == e2
    ensures e1.Filepath() == e2.Filepath() <==> e1 == e2
  {
    Timestamps.FormatInjective(e1.taken, e2.taken);
    ShotPathCollision(e1.dir, e1.taken, e2.taken);
  }

  /** Every record of the history belongs to the model's directory. */
  predicate AllConsistent(dir: string, es: seq<Entry>)
  {
    forall i :: 0 <= i < |es| ==> es[i].dir == dir
  }

  predicate Consistent(m: Model)
  {
    AllConsistent(m.dir, m.history)
  }

  /** What `take_screenshot` does to the model: a raising grab leaves it
      alone, a successful one appends the capture's record. */
  function Record(m: Model, now: Timestamps.DateTime, device: Step): (r: Result<Model>)
    ensures r.Ok? <==> device.Done?
    ensures r.Ok? ==> r.value.dir == m.dir && r.value.history == m.history + [Entry(m.dir, now)]
    ensures r.Err? ==> r.message == device.message
  {
    match device
    case Raises(msg) => Err(msg)
    case Done => Ok(Model(m.dir, m.history + [Entry(m.dir, now)]))
  }

  /** The state after a `take_screenshot` call and what the call gave back:
      the path, or the exception it raised. */
  datatype ShotResult = ShotResult(model: Model, outcome: Result<string>)

  /** `take_screenshot`: compute the stamped path, grab and save, and only
      then append to the history. */
  function TakeScreenshot(m: Model, now: Timestamps.DateTime, device: Step): (r: ShotResult)
    ensures r.model.dir == m.dir
    ensures device.Done? ==> && r.outcome == Ok(ShotPath(m.dir, now))
                                 && r.model.history == m.history + [Entry(m.dir, now)]
                                 && r.model.history[|m.history|].Filepath() == r.outcome.value
                                 && r.model.history[|m.history|].Timestamp() == Timestamps.Format(now)
    ensures device.Raises? ==> r.model == m && r.outcome == Err(device.message)
    ensures Consistent(m) ==> Consistent(r.model)
  {
    var path := Paths.Join(m.dir, ShotFilename(Timestamps.Format(now)));
    match Record(m, now, device)
    case Err(msg) => ShotResult(m, Err(msg))
    case Ok(next) => ShotResult(next, Ok(path))
  }

  /** `get_screenshot_history`: the list itself; in a consistent model
      every record names a file in the directory whose name carries the
      record's own stamp. */
  function GetScreenshotHistory(m: Model): (h: seq<Entry>)
    ensures |h| == |m.history|
    ensures forall i :: 0 <= i < |h| ==> h[i] == m.history[i]
    ensures Consistent(m) ==> forall i :: 0 <= i < |h| ==>
              && Paths.ChildPath(h[i].Filepath(), m.dir, ShotFilename(h[i].Timestamp()))
              && Paths.Name(h[i].Filepath()) == ShotFilename(h[i].Timestamp())
  {
    HistoryNames(m);
    m.history
  }

  lemma HistoryNames(m: Model)
    ensures Consistent(m) ==> forall i :: 0 <= i < |m.history| ==>
              && Paths.ChildPath(m.history[i].Filepath(), m.dir, ShotFilename(m.history[i].Timestamp()))
              && Paths.Name(m.history[i].Filepath()) == ShotFilename(m.history[i].Timestamp())
  {
    forall i | 0 <= i < |m.history|
      ensures Paths.ChildPath(m.history[i].Filepath(), m.history[i].dir, ShotFilename(m.history[i].Timestamp()))
      ensures Paths.Name(m.history[i].Filepath()) == ShotFilename(m.history[i].Timestamp())
    {
      EntryFields(m.history[i]);
    }
  }

  /** `ScreenshotContext`: the model and the `is_capturing` flag. */
  datatype Context = Context(model: Model, capturing: bool)

  /** `start_capture` and `stop_capture` set the flag unconditionally. */
  function StartCapture(c: Context): (r: Context)
    ensures r.capturing && r.model == c.model
  {
    c.(capturing := true)
  }

  function StopCapture(c: Context): (r: Context)
    ensures !r.capturing && r.model == c.model
  {
    c.(capturing := false)
  }

  /** The context after `start_continuous_capture`, and whether it started
      a capture loop. */
  datatype Started = Started(ctx: Context, launched: bool)

  /** `start_continuous_capture`: only from Idle does it raise the flag and
      launch a loop; while Capturing it does nothing. */
  function StartContinuous(c: Context): (r: Started)
    ensures r.launched <==> !c.capturing
    ensures r.ctx.capturing
    ensures r.ctx.model == c.model
    ensures c.capturing ==> r.ctx == c
  {
    if !c.capturing then Started(StartCapture(c), true) else Started(c, false)
  }

  /** `stop_continuous_capture`: only from Capturing does it clear the flag. */
  function StopContinuous(c: Context): (r: Context)
    ensures !r.capturing
    ensures r.model == c.model
    ensures !c.capturing ==> r == c
  {
    if c.capturing then StopCapture(c) else c
  }

  /** Start from Idle followed by stop returns to the same Idle context. */
  lemma StartThenStop(c: Context)
    requires !c.capturing
    ensures StopContinuous(StartContinuous(c).ctx) == c
  {
  }

  /** A second start launches no second loop. */
  lemma StartTwiceLaunchesOnce(c: Context)
    ensures !StartContinuous(StartContinuous(c).ctx).launched
    ensures StartContinuous(StartContinuous(c).ctx).ctx == StartContinuous(c).ctx
  {
  }

  /** `take_single_screenshot`: a raising capture is caught and reported,
      so the context is left as it was; the flag is never touched. */
  function TakeSingleScreenshot(c: Context, now: Timestamps.DateTime, device: Step): (r: Context)
    ensures r.capturing == c.capturing
    ensures r.model.dir == c.model.dir
    ensures device.Done? ==> r.model.history == c.model.history + [Entry(c.model.dir, now)]
    ensures device.Raises? ==> r == c
  {
    c.(model := TakeScreenshot(c.model, now, device).model)
  }

  /** One pass of `capture_loop`: the clock reading and the device outcome
      of its capture, and whether a stop command arrives during the
      one-second sleep that follows. */
  datatype Tick = Tick(now: Timestamps.DateTime, device: Step, stopRequested: bool)

  /** Why the loop ended: the flag was found clear, the capture raised and
      the exception ended the thread, or the ticks ran out with the loop
      still running. */
  datatype LoopEnd = Stopped | Crashed(message: string) | StillRunning

  datatype LoopRun = LoopRun(ctx: Context, end: LoopEnd, captures: nat)

  /** The entries the first ticks record, in order. */
  function Recorded(dir: string, ticks: seq<Tick>): (es: seq<Entry>)
    ensures |es| == |ticks|
    ensures forall i :: 0 <= i < |ticks| ==> es[i] == Entry(dir, ticks[i].now)
    decreases |ticks|
  {
    if ticks == [] then [] else [Entry(dir, ticks[0].now)] + Recorded(dir, ticks[1..])
  }

  lemma RecordedStep(dir: string, ticks: seq<Tick>, n: nat)
    requires n < |ticks|
    ensures Recorded(dir, ticks[..n + 1]) == [Entry(dir, ticks[0].now)] + Recorded(dir, ticks[1..][..n])
  {
    var done := ticks[..n + 1];
    assert done[1..] == ticks[1..][..n];
  }

  /** One pass of the loop body from a capturing context: capture, then
      the sleep during which a stop may arrive. A raising capture ends the
      pass with the exception. */
  function Pass(c: Context, t: Tick): (r: Result<Context>)
    ensures r.Ok? <==> t.device.Done?
    ensures r.Ok? ==> && r.value.model == Model(c.model.dir, c.model.history + [Entry(c.model.dir, t.now)])
                      && r.value.capturing == (c.capturing && !t.stopRequested)
    ensures r.Err? ==> r.message == t.device.message
  {
    match Record(c.model, t.now, t.device)
    case Err(msg) => Err(msg)
    case Ok(m) =>
      var next := c.(model := m);
      Ok(if t.stopRequested then StopContinuous(next) else next)
  }

  /** `capture_loop`, run over `ticks`, as a recursive definition. */
  function Loop(c: Context, ticks: seq<Tick>): (r: LoopRun)
    ensures r.captures <= |ticks|
    ensures r.ctx.model.dir == c.model.dir
    ensures !c.capturing ==> r == LoopRun(c, Stopped, 0)
    ensures r.end.Stopped? <==> !r.ctx.capturing
    ensures r.end.StillRunning? ==> r.captures == |ticks|
    ensures c.capturing ==> forall i :: 0 <= i < r.captures ==> ticks[i].device.Done?
    ensures forall i :: 0 <= i && i + 1 < r.captures ==> !ticks[i].stopRequested
    ensures r.end.Stopped? && c.capturing ==> 0 < r.captures && ticks[r.captures - 1].stopRequested
    ensures r.end.Crashed? ==> && r.captures < |ticks|
                               && ticks[r.captures].device == Raises(r.end.message)
                               && (0 < r.captures ==> !ticks[r.captures - 1].stopRequested)
    ensures r.end.StillRunning? && 0 < |ticks| ==> !ticks[|ticks| - 1].stopRequested
    decreases |ticks|
  {
    if !c.capturing then LoopRun(c, Stopped, 0)
    else if ticks == [] then LoopRun(c, StillRunning, 0)
    else
      match Pass(c, ticks[0])
      case Err(msg) => LoopRun(c, Crashed(msg), 0)
      case Ok(next) =>
        var rest := Loop(next, ticks[1..]);
        rest.(captures := rest.captures + 1)
  }

  /** Each pass taken while capturing appends exactly the entry of its own
      tick, so the loop leaves the old history as a prefix followed by one
      entry per capture, in tick order. */
  lemma {:induction false} LoopRecords(c: Context, ticks: seq<Tick>)
    ensures Loop(c, ticks).ctx.model.history
            == c.model.history + Recorded(c.model.dir, ticks[..Loop(c, ticks).captures])
    decreases |ticks|
  {
    if c.capturing && ticks != [] && Pass(c, ticks[0]).Ok? {
      var next := Pass(c, ticks[0]).value;
      LoopRecords(next, ticks[1..]);
      LoopRecordsStep(c, ticks);
    } else {
      assert Loop(c, ticks).captures == 0;
    }
  }

  /** The inductive step of `LoopRecords`: one successful pass in front of
      a run that already records its ticks. */
  lemma LoopRecordsStep(c: Context, ticks: seq<Tick>)
    requires c.capturing && ticks != [] && Pass(c, ticks[0]).Ok?
    requires var next := Pass(c, ticks[0]).value;
             Loop(next, ticks[1..]).ctx.model.history
             == next.model.history + Recorded(next.model.dir, ticks[1..][..Loop(next, ticks[1..]).captures])
    ensures Loop(c, ticks).ctx.model.history
            == c.model.history + Recorded(c.model.dir, ticks[..Loop(c, ticks).captures])
  {
    var next := Pass(c, ticks[0]).value;
    HeadRecorded(c, ticks);
    Regroup(c.model.history, Entry(c.model.dir, ticks[0].now),
            Recorded(c.model.dir, ticks[1..][..Loop(next, ticks[1..]).captures]));
  }

  /** `LoopHead`, and the first tick's entry in front of what the rest of
      the run records. */
  lemma HeadRecorded(c: Context, ticks: seq<Tick>)
    requires ticks != [] && c.capturing && Pass(c, ticks[0]).Ok?
    ensures var rest := Loop(Pass(c, ticks[0]).value, ticks[1..]);
            && Loop(c, ticks) == Shifted(rest, 1)
            && Recorded(c.model.dir, ticks[..rest.captures + 1])
               == [Entry(c.model.dir, ticks[0].now)] + Recorded(c.model.dir, ticks[1..][..rest.captures])
  {
    LoopHead(c, ticks);
    RecordedStep(c.model.dir, ticks, Loop(Pass(c, ticks[0]).value, ticks[1..]).captures);
  }

  /** `LoopUnfold` at the first tick. */
  lemma LoopHead(c: Context, ticks: seq<Tick>)
    requires ticks != [] && c.capturing && Pass(c, ticks[0]).Ok?
    ensures Loop(c, ticks) == Shifted(Loop(Pass(c, ticks[0]).value, ticks[1..]), 1)
  {
    LoopUnfold(c, ticks, 0);
    assert ticks[0..] == ticks;
  }

  lemma Regroup(h: seq<Entry>, e: Entry, tail: seq<Entry>)
    ensures (h + [e]) + tail == h + ([e] + tail)
  {
  }

  lemma AppendConsistent(dir: string, h: seq<Entry>, added: seq<Entry>)
    requires AllConsistent(dir, h) && AllConsistent(dir, added)
    ensures AllConsistent(dir, h + added)
  {
    forall i | 0 <= i < |h + added|
      ensures (h + added)[i].dir == dir
    {
      if i >= |h| {
        assert (h + added)[i] == added[i - |h|];
      }
    }
  }

  /** The loop keeps every history entry consistent with its directory. */
  lemma LoopKeepsConsistent(c: Context, ticks: seq<Tick>)
    requires Consistent(c.model)
    ensures Consistent(Loop(c, ticks).ctx.model)
  {
    var r := Loop(c, ticks);
    LoopRecords(c, ticks);
    assert AllConsistent(c.model.dir, c.model.history);
    AppendConsistent(c.model.dir, c.model.history, Recorded(c.model.dir, ticks[..r.captures]));
  }

  /** A stop requested during the sleep of pass `k` lets no later pass
      capture: stopping takes effect within one cadence interval. */
  lemma {:induction false} LoopStopLatency(c: Context, ticks: seq<Tick>, k: nat)
    requires k < |ticks| && ticks[k].stopRequested
    ensures Loop(c, ticks).captures <= k + 1
    decreases |ticks|
  {
    if c.capturing && ticks != [] && Pass(c, ticks[0]).Ok? {
      var next := Pass(c, ticks[0]).value;
      LoopHead(c, ticks);
      if k > 0 {
        assert ticks[1..][k - 1] == ticks[k];
        LoopStopLatency(next, ticks[1..], k - 1);
      } else {
        assert Loop(next, ticks[1..]).captures == 0;
      }
    }
  }

  /** A capture that raises inside the loop ends the thread but leaves
      `is_capturing` set, so a later start launches nothing until a stop. */
  lemma CrashBlocksRestart(c: Context, ticks: seq<Tick>)
    requires Loop(c, ticks).end.Crashed?
    ensures Loop(c, ticks).ctx.capturing
    ensures !StartContinuous(Loop(c, ticks).ctx).launched
  {
  }

  /** Clock readings that never go backwards give history stamps that never
      decrease as strings. */
  lemma RecordedStampsSorted(dir: string, ticks: seq<Tick>)
    requires forall i, j :: 0 <= i < j < |ticks| ==> !Timestamps.Earlier(ticks[j].now, ticks[i].now)
    ensures forall i, j :: 0 <= i < j < |ticks| ==>
              !LexLess(Recorded(dir, ticks)[j].Timestamp(), Recorded(dir, ticks)[i].Timestamp())
  {
    var es := Recorded(dir, ticks);
    forall i, j | 0 <= i < j < |ticks|
      ensures !LexLess(es[j].Timestamp(), es[i].Timestamp())
    {
      Timestamps.FormatOrder(ticks[j].now, ticks[i].now);
    }
  }

  /** `capture_loop` as the while loop the thread runs. */
  method CaptureLoop(c: Context, ticks: seq<Tick>) returns (r: LoopRun)
    ensures r == Loop(c, ticks)
  {
    var cur := c;
    var i := 0;
    while cur.capturing && i < |ticks|
      invariant 0 <= i <= |ticks|
      invariant Loop(c, ticks) == Shifted(Loop(cur, ticks[i..]), i)
      decreases |ticks| - i
    {
      match Pass(cur, ticks[i]) {
        case Err(msg) =>
          return LoopRun(cur, Crashed(msg), i);
        case Ok(next) =>
          LoopUnfold(cur, ticks, i);
          cur := next;
      }
      i := i + 1;
    }
    if !cur.capturing {
      r := LoopRun(cur, Stopped, i);
    } else {
      r := LoopRun(cur, StillRunning, i);
    }
  }

  /** A run with `n` more captures counted. */
  function Shifted(r: LoopRun, n: nat): LoopRun
  {
    r.(captures := r.captures + n)
  }

  /** A successful pass at tick `i` adds one capture to the run from tick
      `i + 1`. */
  lemma LoopUnfold(c: Context, ticks: seq<Tick>, i: nat)
    requires i < |ticks| && c.capturing && Pass(c, ticks[i]).Ok?
    ensures Loop(c, ticks[i..]) == Shifted(Loop(Pass(c, ticks[i]).value, ticks[i + 1..]), 1)
  {
    assert ticks[i..][0] == ticks[i];
    assert ticks[i..][1..] == ticks[i + 1..];
  }
}

=== FILE: text.dfy ===
/** String helpers with the meaning of the Python built-ins the scripts use
    (`str.startswith`, `str.lower`, `str.strip`), plus the code-point order
    on strings, in which the stamp-order property is stated. */
module Text {

  predicate StartsWith(s: string, prefix: string)
  {
    |prefix| <= |s| && s[..|prefix|] == prefix
  }

  /** A string starts with the first character of any non-empty prefix. */
  lemma PrefixHead(s: string, prefix: string)
    requires StartsWith(s, prefix) && prefix != []
    ensures s != [] && s[0] == prefix[0]
  {
    assert s[..|prefix|][0] == prefix[0];
  }

  predicate EndsWith(s: string, suffix: string)
  {
    |suffix| <= |s| && s[|s| - |suffix|..] == suffix
  }

  /** Lower-casing of one character. Only ASCII letters are mapped. */
  function LowerChar(c: char): char
  {
    if 'A' <= c <= 'Z' then (c as int + 32) as char else c
  }

  function Lower(s: string): (r: string)
    ensures |r| == |s|
    ensures forall i :: 0 <= i < |s| ==> r[i] == LowerChar(s[i])
  {
    if s == [] then [] else [LowerChar(s[0])] + Lower(s[1..])
  }

  /** The characters for which Python's `str.isspace()` holds. */
  predicate IsSpace(c: char)
  {
    || ('\t' <= c <= '\r')
    || ('\U{1C}' <= c <= ' ')
    || c == '\U{85}' || c == '\U{A0}' || c == '\U{1680}'
    || ('\U{2000}' <= c <= '\U{200A}')
    || c == '\U{2028}' || c == '\U{2029}' || c == '\U{202F}' || c == '\U{205F}'
    || c == '\U{3000}'
  }

  /** Number of whitespace characters at the front of `s`. */
  function LeadingSpaces(s: string): (n: nat)
    ensures n <= |s|
    ensures forall k :: 0 <= k < n ==> IsSpace(s[k])
    ensures n < |s| ==> !IsSpace(s[n])
  {
    if s != [] && IsSpace(s[0]) then 1 + LeadingSpaces(s[1..]) else 0
  }

  /** Number of whitespace characters at the back of `s`. */
  function TrailingSpaces(s: string): (n: nat)
    ensures n <= |s|
    ensures forall k :: |s| - n <= k < |s| ==> IsSpace(s[k])
    ensures n < |s| ==> !IsSpace(s[|s| - n - 1])
  {
    if s != [] && IsSpace(s[|s| - 1]) then 1 + TrailingSpaces(s[..|s| - 1]) else 0
  }

  /** `s.strip()`: the slice `s[lo..hi]` that remains once whitespace is
      removed from both ends. */
  function Strip(s: string): (r: string)
    ensures |r| <= |s|
    ensures r == [] || (!IsSpace(r[0]) && !IsSpace(r[|r| - 1]))
    ensures r == [] ==> forall k :: 0 <= k < |s| ==> IsSpace(s[k])
    ensures var lo := LeadingSpaces(s);
              && lo + |r| <= |s| && s[lo..lo + |r|] == r
              && forall k :: lo + |r| <= k < |s| ==> IsSpace(s[k])
  {
    var lo := LeadingSpaces(s);
    var rest := s[lo..];
    var r := rest[..|rest| - TrailingSpaces(rest)];
    assert s[lo..lo + |r|] == r;
    r
  }

  /** Stripping twice removes nothing more. */
  lemma StripIdempotent(s: string)
    ensures Strip(Strip(s)) == Strip(s)
  {
    var r := Strip(s);
    assert r == [] || (LeadingSpaces(r) == 0 && TrailingSpaces(r) == 0);
  }

  /** The order Python's `a < b` gives on strings: code-point lexicographic
      order, a proper prefix being smaller. No script compares strings; this
      is the order in which sorted stamps are stated. */
  function LexLess(a: string, b: string): bool
  {
    if b == [] then false
    else if a == [] then true
    else if a[0] != b[0] then a[0] < b[0]
    else LexLess(a[1..], b[1..])
  }

  lemma {:induction false} LexLessIrreflexive(a: string)
    ensures !LexLess(a, a)
  {
    if a != [] {
      LexLessIrreflexive(a[1..]);
    }
  }

  lemma {:induction false} LexLessAsymmetric(a: string, b: string)
    requires LexLess(a, b)
    ensures !LexLess(b, a)
  {
    if a != [] && b != [] && a[0] == b[0] {
      LexLessAsymmetric(a[1..], b[1..]);
    }
  }

  /** A common prefix does not change the order. */
  lemma {:induction false} LexLessCommonPrefix(x: string, y1: string, y2: string)
    requires LexLess(y1, y2)
    ensures LexLess(x + y1, x + y2)
  {
    if x == [] {
      assert x + y1 == y1 && x + y2 == y2;
    } else {
      assert (x + y1)[1..] == x[1..] + y1;
      assert (x + y2)[1..] == x[1..] + y2;
      LexLessCommonPrefix(x[1..], y1, y2);
    }
  }

  /** Between equal-length heads, the heads alone decide the order. */
  lemma {:induction false} LexLessEqualLengthHeads(x1: string, x2: string, y1: string, y2: string)
    requires |x1| == |x2|
    requires LexLess(x1, x2)
    ensures LexLess(x1 + y1, x2 + y2)
  {
    assert x1 != [] && x2 != [];
    if x1[0] == x2[0] {
      assert (x1 + y1)[1..] == x1[1..] + y1;
      assert (x2 + y2)[1..] == x2[1..] + y2;
      LexLessEqualLengthHeads(x1[1..], x2[1..], y1, y2);
    }
  }
}

=== FILE: timestamps.dfy ===
/** The clock reading the scripts take with `datetime.now()` and the text
    `strftime("%Y%m%d_%H%M%S")` makes of it: fifteen characters, a
    four-digit year and two-digit month, day, hour, minute and second, all
    zero-padded, with one underscore between date and time. */
module Timestamps {
  import opened Wrappers
  import opened Text
  import Paths

  /** The fields of a `datetime`, from the year down to the second. */
  datatype Clock = Clock(year: int, month: int, day: int, hour: int, minute: int, second: int)

  predicate IsLeapYear(y: int)
  {
    y % 4 == 0 && (y % 100 != 0 || y % 400 == 0)
  }

  function DaysInMonth(y: int, m: int): int
    requires 1 <= m <= 12
  {
    if m == 2 then (if IsLeapYear(y) then 29 else 28)
    else if m == 4 || m == 6 || m == 9 || m == 11 then 30
    else 31
  }

  /** A reading `datetime` can hold, restricted to four-digit years. */
  predicate ValidClock(c: Clock)
  {
    && 1000 <= c.year <= 9999
    && 1 <= c.month <= 12
    && 1 <= c.day <= DaysInMonth(c.year, c.month)
    && 0 <= c.hour < 24
    && 0 <= c.minute < 60
    && 0 <= c.second < 60
  }

  type DateTime = c: Clock | ValidClock(c) witness Clock(2024, 1, 1, 0, 0, 0)

  /** Chronological order: `t1` is strictly earlier than `t2`. */
  predicate Earlier(t1: Clock, t2: Clock)
  {
    if t1.year != t2.year then t1.year < t2.year
    else if t1.month != t2.month then t1.month < t2.month
    else if t1.day != t2.day then t1.day < t2.day
    else if t1.hour != t2.hour then t1.hour < t2.hour
    else if t1.minute != t2.minute then t1.minute < t2.minute
    else t1.second < t2.second
  }

  function Pow10(w: nat): (p: nat)
    ensures 0 < p
  {
    if w == 0 then 1 else 10 * Pow10(w - 1)
  }

  predicate IsDigit(c: char)
  {
    '0' <= c <= '9'
  }

  predicate AllDigits(s: string)
  {
    forall i :: 0 <= i < |s| ==> IsDigit(s[i])
  }

  function DigitChar(d: int): (c: char)
    requires 0 <= d < 10
    ensures IsDigit(c)
    ensures c as int - '0' as int == d
  {
    ('0' as int + d) as char
  }

  /** `n` written in decimal, zero-padded on the left to `width` digits. */
  function Digits(n: nat, width: nat): (s: string)
    requires n < Pow10(width)
    ensures |s| == width
    ensures AllDigits(s)
  {
    if width == 0 then [] else Digits(n / 10, width - 1) + [DigitChar(n % 10)]
  }

  /** The number a string of decimal digits denotes. */
  function Value(s: string): nat
    requires AllDigits(s)
  {
    if s == [] then 0 else 10 * Value(s[..|s| - 1]) + (s[|s| - 1] as int - '0' as int)
  }

  lemma {:induction false} ValueOfDigits(n: nat, width: nat)
    requires n < Pow10(width)
    ensures Value(Digits(n, width)) == n
  {
    if width > 0 {
      var s := Digits(n, width);
      assert s[..|s| - 1] == Digits(n / 10, width - 1);
      ValueOfDigits(n / 10, width - 1);
    }
  }

  lemma {:induction false} DigitsOfValue(s: string)
    requires AllDigits(s)
    ensures Value(s) < Pow10(|s|)
    ensures Digits(Value(s), |s|) == s
  {
    if s != [] {
      var init := s[..|s| - 1];
      DigitsOfValue(init);
      assert s == init + [s[|s| - 1]];
    }
  }

  /** Padded digit strings of one width compare as their numbers do. */
  lemma {:induction false} DigitsOrder(a: nat, b: nat, width: nat)
    requires a < b < Pow10(width)
    ensures LexLess(Digits(a, width), Digits(b, width))
  {
    var ha, hb := Digits(a / 10, width - 1), Digits(b / 10, width - 1);
    var la, lb := [DigitChar(a % 10)], [DigitChar(b % 10)];
    if a / 10 < b / 10 {
      DigitsOrder(a / 10, b / 10, width - 1);
      LexLessEqualLengthHeads(ha, hb, la, lb);
    } else {
      assert ha == hb;
      assert LexLess(la, lb);
      LexLessCommonPrefix(ha, la, lb);
    }
  }

  /** The fields `%Y %m %d %H %M %S` of the stamp, coarsest first. */
  function Field(t: DateTime, k: nat): (v: nat)
    requires k < 6
    ensures v < Pow10(Width(k))
  {
    match k
    case 0 => t.year
    case 1 => t.month
    case 2 => t.day
    case 3 => t.hour
    case 4 => t.minute
    case _ => t.second
  }

  /** `%Y` pads to four digits, every other field to two. */
  function Width(k: nat): nat
  {
    if k == 0 then 4 else 2
  }

  /** The literal text in front of field `k`: the underscore before `%H`. */
  function Sep(k: nat): string
  {
    if k == 3 then "_" else ""
  }

  /** `strftime("%Y%m%d_%H%M%S")`: the fields, each zero-padded. */
  function Format(t: DateTime): (s: string)
    ensures |s| == 15
  {
    Tail(t, 0)
  }

  /** The stamp from field `k` on. */
  function Tail(t: DateTime, k: nat): (s: string)
    requires k <= 6
    ensures |s| == 2 * (6 - k) + (if k == 0 then 2 else 0) + (if k <= 3 then 1 else 0)
    decreases 6 - k
  {
    if k == 6 then [] else Sep(k) + (Digits(Field(t, k), Width(k)) + Tail(t, k + 1))
  }

  /** One step of `Tail`, with its separator spelled out. */
  lemma TailStep(t: DateTime, k: nat)
    requires k < 6
    ensures k != 3 ==> Tail(t, k) == Digits(Field(t, k), Width(k)) + Tail(t, k + 1)
    ensures k == 3 ==> Tail(t, k) == "_" + (Digits(Field(t, k), 2) + Tail(t, k + 1))
  {
    if k != 3 {
      assert Sep(k) == [];
      assert [] + (Digits(Field(t, k), Width(k)) + Tail(t, k + 1))
             == Digits(Field(t, k), Width(k)) + Tail(t, k + 1);
    }
  }

  /** Where each field sits in a stamp. */
  lemma FormatFields(t: DateTime)
    ensures Format(t)[..4] == Digits(t.year, 4)
    ensures Format(t)[4..6] == Digits(t.month, 2)
    ensures Format(t)[6..8] == Digits(t.day, 2)
    ensures Format(t)[8] == '_'
    ensures Format(t)[9..11] == Digits(t.hour, 2)
    ensures Format(t)[11..13] == Digits(t.minute, 2)
    ensures Format(t)[13..] == Digits(t.second, 2)
  {
    var s := Format(t);
    FormatSuffixes(t);
    TailHead(t, 0);
    TailHead(t, 1);
    TailHead(t, 2);
    HourHead(t);
    TailHead(t, 4);
    TailHead(t, 5);
    assert s[4..6] == s[4..][..2];
    assert s[6..8] == s[6..][..2];
    assert s[8] == s[8..][0];
    assert s[9..11] == s[8..][1..3];
    assert s[11..13] == s[11..][..2];
    assert Tail(t, 5)[..2] == Tail(t, 5);
  }

  /** Where the text of each field from the month on starts. */
  lemma FormatSuffixes(t: DateTime)
    ensures Format(t)[4..] == Tail(t, 1)
    ensures Format(t)[6..] == Tail(t, 2)
    ensures Format(t)[8..] == Tail(t, 3)
    ensures Format(t)[11..] == Tail(t, 4)
    ensures Format(t)[13..] == Tail(t, 5)
  {
    var s := Format(t);
    assert s[0..] == Tail(t, 0);
    NextSuffix(t, 0, 0);
    NextSuffix(t, 4, 1);
    NextSuffix(t, 6, 2);
    HourHead(t);
    DropDrop(s, 8, 3);
    NextSuffix(t, 11, 4);
  }

  /** The text after field `k`'s digits starts where field `k + 1` does. */
  lemma NextSuffix(t: DateTime, i: nat, k: nat)
    requires k < 6 && k != 3 && i + Width(k) <= 15 && Format(t)[i..] == Tail(t, k)
    ensures Format(t)[i + Width(k)..] == Tail(t, k + 1)
  {
    TailHead(t, k);
    DropDrop(Format(t), i, Width(k));
  }

  lemma DropDrop(s: string, i: nat, w: nat)
    requires i + w <= |s|
    ensures s[i..][w..] == s[i + w..]
  {
  }

  /** A field other than the hour opens its tail. */
  lemma TailHead(t: DateTime, k: nat)
    requires k < 6 && k != 3
    ensures Tail(t, k)[..Width(k)] == Digits(Field(t, k), Width(k))
    ensures Tail(t, k)[Width(k)..] == Tail(t, k + 1)
  {
    TailStep(t, k);
  }

  /** The hour's tail opens with the underscore. */
  lemma HourHead(t: DateTime)
    ensures Tail(t, 3)[0] == '_'
    ensures Tail(t, 3)[1..3] == Digits(t.hour, 2)
    ensures Tail(t, 3)[3..] == Tail(t, 4)
  {
    TailStep(t, 3);
    var h := Tail(t, 3);
    assert h[1..] == Digits(t.hour, 2) + Tail(t, 4);
  }

  /** A stamp is eight digits, an underscore and six digits. */
  lemma FormatShape(t: DateTime)
    ensures forall i :: 0 <= i < 15 && i != 8 ==> IsDigit(Format(t)[i])
    ensures Format(t)[8] == '_'
  {
    var s := Format(t);
    FormatFields(t);
    forall i | 0 <= i < 15 && i != 8
      ensures IsDigit(s[i])
    {
      if i < 4 { assert s[i] == s[..4][i]; }
      else if i < 6 { assert s[i] == s[4..6][i - 4]; }
      else if i < 8 { assert s[i] == s[6..8][i - 6]; }
      else if i < 11 { assert s[i] == s[9..11][i - 9]; }
      else if i < 13 { assert s[i] == s[11..13][i - 11]; }
      else { assert s[i] == s[13..][i - 13]; }
    }
  }

  /** No stamp holds a path separator. */
  lemma FormatHasNoSlash(t: DateTime)
    ensures Paths.Separator !in Format(t)
  {
    var s := Format(t);
    FormatShape(t);
    forall i | 0 <= i < 15
      ensures s[i] != Paths.Separator
    {
      if i != 8 {
        assert IsDigit(s[i]);
      }
    }
  }

  /** Two stamp-shaped strings that agree field by field are equal. */
  lemma SameFields(a: string, b: string)
    requires |a| == 15 && |b| == 15
    requires a[..4] == b[..4] && a[4..6] == b[4..6] && a[6..8] == b[6..8] && a[8] == b[8]
    requires a[9..11] == b[9..11] && a[11..13] == b[11..13] && a[13..] == b[13..]
    ensures a == b
  {
    forall i | 0 <= i < 15
      ensures a[i] == b[i]
    {
      if i < 4 { assert a[i] == a[..4][i] && b[i] == b[..4][i]; }
      else if i < 6 { assert a[i] == a[4..6][i - 4] && b[i] == b[4..6][i - 4]; }
      else if i < 8 { assert a[i] == a[6..8][i - 6] && b[i] == b[6..8][i - 6]; }
      else if i == 8 { }
      else if i < 11 { assert a[i] == a[9..11][i - 9] && b[i] == b[9..11][i - 9]; }
      else if i < 13 { assert a[i] == a[11..13][i - 11] && b[i] == b[11..13][i - 11]; }
      else { assert a[i] == a[13..][i - 13] && b[i] == b[13..][i - 13]; }
    }
  }

  /** 2024-01-01 12:00:00 is stamped "20240101_120000". The reading comes in
      as `t`, pinned by the precondition, rather than as a literal: with a
      literal argument the verifier unfolds `Format` on constants all the way
      and the proof becomes needlessly expensive. */
  lemma NoonStamp(t: DateTime)
    requires t == Clock(2024, 1, 1, 12, 0, 0)
    ensures Format(t) == "20240101_120000"
  {
    NoonDigits();
    FormatFields(t);
    SameFields(Format(t), "20240101_120000");
  }

  /** The zero-padded fields of 2024-01-01 12:00:00. */
  lemma NoonDigits()
    ensures Digits(2024, 4) == "2024" && Digits(1, 2) == "01"
    ensures Digits(12, 2) == "12" && Digits(0, 2) == "00"
  {
    assert Digits(20, 2) == "20";
    assert Digits(202, 3) == "202";
    assert Digits(1, 1) == "1";
  }

  /** Reads back a formatted stamp; `None` for any text `Format` cannot
      produce. */
  function Parse(s: string): (r: Option<DateTime>)
    ensures r.Some? ==> |s| == 15 && s[8] == '_'
  {
    if && |s| == 15 && s[8] == '_'
       && AllDigits(s[..4]) && AllDigits(s[4..6]) && AllDigits(s[6..8])
       && AllDigits(s[9..11]) && AllDigits(s[11..13]) && AllDigits(s[13..])
    then
      var c := Clock(Value(s[..4]), Value(s[4..6]), Value(s[6..8]),
                     Value(s[9..11]), Value(s[11..13]), Value(s[13..]));
      if ValidClock(c) then Some(c) else None
    else None
  }

  /** Every stamp reads back as the time it was made from. */
  lemma ParseFormat(t: DateTime)
    ensures Parse(Format(t)) == Some(t)
  {
    FormatFields(t);
    ValueOfDigits(t.year, 4);
    ValueOfDigits(t.month, 2);
    ValueOfDigits(t.day, 2);
    ValueOfDigits(t.hour, 2);
    ValueOfDigits(t.minute, 2);
    ValueOfDigits(t.second, 2);
  }

  /** Every text that reads back is exactly the stamp of what it reads as. */
  lemma FormatParse(s: string, t: DateTime)
    requires Parse(s) == Some(t)
    ensures Format(t) == s
  {
    FormatFields(t);
    DigitsOfValue(s[..4]);
    DigitsOfValue(s[4..6]);
    DigitsOfValue(s[6..8]);
    DigitsOfValue(s[9..11]);
    DigitsOfValue(s[11..13]);
    DigitsOfValue(s[13..]);
    SameFields(Format(t), s);
  }

  /** Two readings give the same stamp exactly when they fall in the same
      second. */
  lemma FormatInjective(t1: DateTime, t2: DateTime)
    ensures Format(t1) == Format(t2) <==> t1 == t2
  {
    ParseFormat(t1);
    ParseFormat(t2);
  }

  /** A smaller leading field, or an equal one followed by smaller text,
      gives smaller text. */
  lemma FieldOrder(a: nat, b: nat, width: nat, rest1: string, rest2: string)
    requires a < Pow10(width) && b < Pow10(width)
    requires a < b || (a == b && LexLess(rest1, rest2))
    ensures LexLess(Digits(a, width) + rest1, Digits(b, width) + rest2)
  {
    if a < b {
      DigitsOrder(a, b, width);
      LexLessEqualLengthHeads(Digits(a, width), Digits(b, width), rest1, rest2);
    } else {
      LexLessCommonPrefix(Digits(a, width), rest1, rest2);
    }
  }

  /** The fields in front of field `k` agree. */
  predicate AgreeBefore(t1: DateTime, t2: DateTime, k: nat)
  {
    && (k > 0 ==> t1.year == t2.year)
    && (k > 1 ==> t1.month == t2.month)
    && (k > 2 ==> t1.day == t2.day)
    && (k > 3 ==> t1.hour == t2.hour)
    && (k > 4 ==> t1.minute == t2.minute)
  }

  /** When the fields in front of `k` agree, the earlier time has the
      smaller stamp from field `k` on. */
  lemma {:induction false} TailOrder(t1: DateTime, t2: DateTime, k: nat)
    requires k < 6 && AgreeBefore(t1, t2, k) && Earlier(t1, t2)
    ensures LexLess(Tail(t1, k), Tail(t2, k))
    decreases 6 - k
  {
    var a, b := Field(t1, k), Field(t2, k);
    if a == b {
      TailOrder(t1, t2, k + 1);
    }
    FieldOrder(a, b, Width(k), Tail(t1, k + 1), Tail(t2, k + 1));
    SeparatedOrder(t1, t2, k);
  }

  /** The separator in front of field `k` is common to both stamps. */
  lemma SeparatedOrder(t1: DateTime, t2: DateTime, k: nat)
    requires k < 6
    requires LexLess(Digits(Field(t1, k), Width(k)) + Tail(t1, k + 1),
                     Digits(Field(t2, k), Width(k)) + Tail(t2, k + 1))
    ensures LexLess(Tail(t1, k), Tail(t2, k))
  {
    LexLessCommonPrefix(Sep(k), Digits(Field(t1, k), Width(k)) + Tail(t1, k + 1),
                        Digits(Field(t2, k), Width(k)) + Tail(t2, k + 1));
  }

  lemma EarlierFormatsLess(t1: DateTime, t2: DateTime)
    requires Earlier(t1, t2)
    ensures LexLess(Format(t1), Format(t2))
  {
    TailOrder(t1, t2, 0);
  }

  /** Stamps sort as strings in the same order as the times they encode. */
  lemma FormatOrder(t1: DateTime, t2: DateTime)
    ensures Earlier(t1, t2) <==> LexLess(Format(t1), Format(t2))
  {
    if Earlier(t1, t2) {
      EarlierFormatsLess(t1, t2);
    } else if t1 == t2 {
      LexLessIrreflexive(Format(t1));
    } else {
      assert Earlier(t2, t1);
      EarlierFormatsLess(t2, t1);
      LexLessAsymmetric(Format(t2), Format(t1));
    }
  }
}

=== FILE: web_screenshot.dfy ===
/** The browser capture script: normalise the URL, open a headless browser
    session, navigate, save a stamped PNG on the desktop, turn any failure
    inside the session into an "Error: ..." string, and always release the
    session once it exists; plus the prompt loop that runs one capture task
    per line until "exit". The browser calls are outcomes passed in. */
module WebScreenshot {
  import opened Wrappers
  import opened Text
  import Paths
  import Timestamps

  const HttpScheme := "http://"
  const HttpsScheme := "https://"

  predicate HasScheme(url: string)
  {
    StartsWith(url, HttpScheme) || StartsWith(url, HttpsScheme)
  }

  /** Prefix "https://" unless the URL already starts with one of the two
      schemes, compared case-sensitively. */
  function NormalizeUrl(url: string): (r: string)
    ensures HasScheme(r)
    ensures HasScheme(url) ==> r == url
    ensures !HasScheme(url) ==> r == HttpsScheme + url
    ensures EndsWith(r, url)
  {
    if HasScheme(url) then url
    else
      assert (HttpsScheme + url)[..|HttpsScheme|] == HttpsScheme;
      HttpsScheme + url
  }

  lemma NormalizeIdempotent(url: string)
    ensures NormalizeUrl(NormalizeUrl(url)) == NormalizeUrl(url)
  {
  }

  /** The scheme test does not fold case. */
  lemma UpperCaseSchemeIsPrefixed()
    ensures NormalizeUrl("HTTP://x") == "https://HTTP://x"
  {
    assert !StartsWith("HTTP://x", HttpScheme) by {
      assert "HTTP://x"[0] != HttpScheme[0];
    }
    assert !StartsWith("HTTP://x", HttpsScheme) by {
      assert "HTTP://x"[0] != HttpsScheme[0];
    }
  }

  function WebShotFilename(now: Timestamps.DateTime): string
  {
    "crew_web_screenshot_" + Timestamps.Format(now) + ".png"
  }

  /** Where a capture at `now` is saved: `~/Desktop/crew_web_screenshot_<ts>.png`,
      the stamped name directly inside the desktop directory. */
  function WebShotPath(home: string, now: Timestamps.DateTime): (p: string)
    ensures Paths.ChildPath(p, Paths.Join(home, "Desktop"), WebShotFilename(now))
    ensures Paths.Name(p) == WebShotFilename(now)
  {
    var f := WebShotFilename(now);
    Timestamps.FormatHasNoSlash(now);
    Paths.PlainConcat("crew_web_screenshot_", Timestamps.Format(now), ".png");
    Paths.NameOfJoin(Paths.Join(home, "Desktop"), f);
    Paths.Join(Paths.Join(home, "Desktop"), f)
  }

  /** What the library calls do: creating the desktop directory, starting
      the browser, loading the page, and saving the screenshot. */
  datatype Browser = Browser(makeDir: Step, launch: Step, navigate: Step, save: Step)

  /** What happens to the browser session, in order. */
  datatype SessionEvent = Acquire | Navigate(url: string) | Save(path: string) | Release

  /** How `take_website_screenshot` ends: it returns a string, or an
      exception raised before the session existed escapes it. */
  datatype Exit = Returned(text: string) | Propagated(message: string)

  datatype WebRun = WebRun(exit: Exit, trace: seq<SessionEvent>)

  function CountOf(trace: seq<SessionEvent>, e: SessionEvent): (n: nat)
    ensures n <= |trace|
    ensures n == 0 <==> e !in trace
  {
    if trace == [] then 0
    else (if trace[0] == e then 1 else 0) + CountOf(trace[1..], e)
  }

  lemma {:induction false} CountOfConcat(a: seq<SessionEvent>, b: seq<SessionEvent>, e: SessionEvent)
    ensures CountOf(a + b, e) == CountOf(a, e) + CountOf(b, e)
  {
    if a == [] {
      assert a + b == b;
    } else {
      assert (a + b)[1..] == a[1..] + b;
      CountOfConcat(a[1..], b, e);
    }
  }

  /** The trace of a session that was opened: acquire, the work done in
      it, release. */
  function Session(work: seq<SessionEvent>): (trace: seq<SessionEvent>)
    requires Acquire !in work && Release !in work
    ensures Acquire in trace && Release in trace
    ensures CountOf(trace, Acquire) == 1 && CountOf(trace, Release) == 1
    ensures trace[0] == Acquire && trace[|trace| - 1] == Release
    ensures forall e :: e in work <==> e in trace && e != Acquire && e != Release
    ensures forall e :: e != Acquire && e != Release ==> CountOf(trace, e) == CountOf(work, e)
  {
    forall e | e != Acquire && e != Release
      ensures CountOf([Acquire] + work + [Release], e) == CountOf(work, e)
    {
      CountOfConcat([Acquire] + work, [Release], e);
      CountOfConcat([Acquire], work, e);
    }
    CountOfConcat([Acquire] + work, [Release], Release);
    CountOfConcat([Acquire], work, Release);
    CountOfConcat([Acquire] + work, [Release], Acquire);
    CountOfConcat([Acquire], work, Acquire);
    [Acquire] + work + [Release]
  }

  const ErrorPrefix := "Error: "

  /** The events of an opened session: acquire, load `target`, save to
      `path` when the load did not raise, release. */
  function SessionTrace(target: string, path: string, loaded: bool): (trace: seq<SessionEvent>)
    ensures CountOf(trace, Acquire) == 1 && CountOf(trace, Release) == 1
    ensures 2 < |trace| && trace[0] == Acquire && trace[1] == Navigate(target)
    ensures trace[|trace| - 1] == Release
    ensures forall u :: Navigate(u) in trace ==> u == target
    ensures Save(path) in trace <==> loaded
    ensures forall q :: Save(q) in trace ==> q == path
    ensures CountOf(trace, Navigate(target)) == 1
    ensures CountOf(trace, Save(path)) == (if loaded then 1 else 0)
  {
    var work := if loaded then [Navigate(target), Save(path)] else [Navigate(target)];
    assert work[1..] == if loaded then [Save(path)] else [];
    Session(work)
  }

  /** The `try`/`finally` block once the session exists: navigate to the
      normalised `target`, save to `path`, turn a raised exception into
      "Error: <message>", and release the session on both paths. */
  function InSession(target: string, path: string, b: Browser): (r: WebRun)
    ensures r.exit.Returned?
    ensures CountOf(r.trace, Acquire) == 1 && CountOf(r.trace, Release) == 1
    ensures 2 < |r.trace| && r.trace[0] == Acquire && r.trace[1] == Navigate(target)
    ensures r.trace[|r.trace| - 1] == Release
    ensures forall u :: Navigate(u) in r.trace ==> u == target
    ensures Save(path) in r.trace <==> b.navigate.Done?
    ensures forall q :: Save(q) in r.trace ==> q == path
    ensures CountOf(r.trace, Navigate(target)) == 1
    ensures CountOf(r.trace, Save(path)) == (if b.navigate.Done? then 1 else 0)
    ensures b.navigate.Done? && b.save.Done? ==> r.exit.text == path
    ensures b.navigate.Raises? ==> r.exit.text == ErrorPrefix + b.navigate.message
    ensures b.navigate.Done? && b.save.Raises? ==> r.exit.text == ErrorPrefix + b.save.message
  {
    var trace := SessionTrace(target, path, b.navigate.Done?);
    if b.navigate.Raises? then WebRun(Returned(ErrorPrefix + b.navigate.message), trace)
    else if b.save.Raises? then WebRun(Returned(ErrorPrefix + b.save.message), trace)
    else WebRun(Returned(path), trace)
  }

  /** `take_website_screenshot(url)` with `~` as `home` and the clock
      reading taken after the page load as `now`. Creating the directory
      and starting the browser happen before the `try`, so their
      exceptions escape and nothing is released. */
  function TakeWebsiteScreenshot(url: string, home: string, now: Timestamps.DateTime, b: Browser): (r: WebRun)
    ensures CountOf(r.trace, Acquire) == (if b.makeDir.Done? && b.launch.Done? then 1 else 0)
    ensures CountOf(r.trace, Release) == (if Acquire in r.trace then 1 else 0)
    ensures Release in r.trace ==> r.trace[|r.trace| - 1] == Release
    ensures Acquire in r.trace <==> b.makeDir.Done? && b.launch.Done?
    ensures r.exit.Returned? <==> Acquire in r.trace
    ensures forall u :: Navigate(u) in r.trace ==> u == NormalizeUrl(url)
    ensures Acquire in r.trace ==> r.trace[0] == Acquire && r.trace[1] == Navigate(NormalizeUrl(url))
    ensures Save(WebShotPath(home, now)) in r.trace <==> Acquire in r.trace && b.navigate.Done?
    ensures forall q :: Save(q) in r.trace ==> q == WebShotPath(home, now)
    ensures CountOf(r.trace, Navigate(NormalizeUrl(url))) == (if Acquire in r.trace then 1 else 0)
    ensures CountOf(r.trace, Save(WebShotPath(home, now))) ==
              (if Acquire in r.trace && b.navigate.Done? then 1 else 0)
    ensures r.exit.Propagated? ==>
              r.exit.message == (if b.makeDir.Raises? then b.makeDir.message else b.launch.message)
    ensures r.exit.Returned? && b.navigate.Done? && b.save.Done? ==>
              r.exit.text == WebShotPath(home, now)
    ensures r.exit.Returned? && b.navigate.Raises? ==> r.exit.text == ErrorPrefix + b.navigate.message
    ensures r.exit.Returned? && b.navigate.Done? && b.save.Raises? ==>
              r.exit.text == ErrorPrefix + b.save.message
  {
    if b.makeDir.Raises? then WebRun(Propagated(b.makeDir.message), [])
    else if b.launch.Raises? then WebRun(Propagated(b.launch.message), [])
    else InSession(NormalizeUrl(url), WebShotPath(home, now), b)
  }

  /** Once the browser has started, and with an absolute home directory,
      an error string can never be taken for a saved path: the result
      starts with "Error: " exactly when the capture failed. */
  lemma ErrorNeverLooksLikePath(url: string, home: string, now: Timestamps.DateTime, b: Browser)
    requires StartsWith(home, "/")
    requires b.makeDir.Done? && b.launch.Done?
    ensures StartsWith(TakeWebsiteScreenshot(url, home, now, b).exit.text, ErrorPrefix)
            <==> b.navigate.Raises? || b.save.Raises?
  {
    var r := TakeWebsiteScreenshot(url, home, now, b);
    if b.navigate.Done? && b.save.Done? {
      AbsolutePathIsNoError(home, now);
    } else {
      assert StartsWith(r.exit.text, ErrorPrefix);
    }
  }

  lemma AbsolutePathIsNoError(home: string, now: Timestamps.DateTime)
    requires StartsWith(home, "/")
    ensures !StartsWith(WebShotPath(home, now), ErrorPrefix)
  {
    var dir := Paths.Join(home, "Desktop");
    var p := WebShotPath(home, now);
    PrefixHead(home, "/");
    PrefixHead(dir, home);
    PrefixHead(p, dir);
    assert p[..|ErrorPrefix|][0] != ErrorPrefix[0];
  }

  /** `url.lower() == 'exit'`. */
  predicate IsExitCommand(s: string): (b: bool)
    ensures b <==> Lower(s) == "exit"
    ensures b ==> |s| == 4
  {
    Lower(s) == "exit"
  }

  /** The exit test accepts exactly the sixteen spellings of "exit" in
      mixed case. */
  lemma ExitCommandSpellings(s: string)
    ensures IsExitCommand(s) <==>
              && |s| == 4
              && (s[0] == 'e' || s[0] == 'E')
              && (s[1] == 'x' || s[1] == 'X')
              && (s[2] == 'i' || s[2] == 'I')
              && (s[3] == 't' || s[3] == 'T')
  {
    if |s| == 4 {
      var l := Lower(s);
      assert l == [l[0], l[1], l[2], l[3]];
    }
  }

  /** The task handed to the agent framework for one URL. */
  datatype ScreenshotTask = ScreenshotTask(description: string, url: string)

  function TaskFor(url: string): (t: ScreenshotTask)
    ensures t.url == url
  {
    ScreenshotTask("Take a screenshot of " + url, url)
  }

  /** `main`: take answers until one is "exit" in any case; every other
      answer becomes exactly one screenshot task, in order. `inputs` are the
      answers `Prompt.ask` returns, and a finite `inputs` with no exit stands
      for the session up to that point. */
  method RunPrompt(inputs: seq<string>) returns (tasks: seq<ScreenshotTask>, exited: bool)
    ensures exited <==> exists i :: 0 <= i < |inputs| && IsExitCommand(inputs[i])
    ensures |tasks| <= |inputs|
    ensures forall i :: 0 <= i < |tasks| ==> tasks[i] == TaskFor(inputs[i]) && !IsExitCommand(inputs[i])
    ensures exited ==> IsExitCommand(inputs[|tasks|])
    ensures !exited ==> |tasks| == |inputs|
  {
    tasks := [];
    exited := false;
    var i := 0;
    while i < |inputs|
      invariant 0 <= i <= |inputs|
      invariant |tasks| == i
      invariant forall k :: 0 <= k < i ==> tasks[k] == TaskFor(inputs[k]) && !IsExitCommand(inputs[k])
    {
      if IsExitCommand(inputs[i]) {
        exited := true;
        return;
      }
      tasks := tasks + [TaskFor(inputs[i])];
      i := i + 1;
    }
  }
}

=== FILE: wrappers.dfy ===
/** Failure-carrying values shared by the other modules. A Python exception
    that a function lets escape, or converts into a message, is modelled as
    `Err(message)`, where `message` stands for `str(e)`. */
module Wrappers {

  /** A value that may be absent (Python's `None`). */
  datatype Option<+T> = None | Some(value: T)

  /** Either a value or the message of the exception that replaced it. */
  datatype Result<+T> = Ok(value: T) | Err(message: string)

  /** The outcome of a call into a library that returns nothing useful but
      may raise. */
  datatype Step = Done | Raises(message: string)
}
